=== FILE: README.md ===
# Safari Vendors API — a Dafny model of the request handlers

This project models the core of a small Flask e-commerce backend: the four
request handlers of `app.py` and the record layer of `models.py` that they
rely on.

- `login` turns an email and password into an access token.
- `create_review` stores a review of a product by the caller.
- `create_order` is the checkout: it turns a list of product ids into an order with items.
- `get_orders` lists the caller's orders, serialised with their items.

Each handler is a pure function from a store, the caller's identity and a
request body to a response and a new store. The store holds the six tables
(users, vendors, products, orders, order items, reviews) as sequences in
storage order. A column that may hold SQL NULL is an `Option`.

A database commit (`Session.Commit`) works like this:

- It flushes the pending rows one after the other.
- It rejects the first row holding an integer that does not fit SQLite's 64-bit INTEGER, because the driver cannot bind it.
- It rejects the first row that breaks a NOT NULL constraint or the unique email column. NULLs never collide.
- It gives each accepted row the next key of its table: one more than the largest key stored, or 1 in a table without keys.
- It applies every row or none.

The set of NOT NULL columns a commit enforces is a parameter. `Models.DeclaredNotNull`
is the set declared in `models.py`. Keeping it a parameter lets the model state two
facts separately: what the checkout does under the declared schema, and what its
two-commit structure does under any schema.

The cascades declared on the relationships of `models.py` are modelled as
explicit deletions (`Cascade`). The marshmallow schemas that decide which
fields reach a response are modelled too (`Schemas`).

Modules, in dependency order:

- `Tables` (tables.dfy): filtering, the UNIQUE constraint and key assignment on a table.
- `Models` (models.dfy): the records, the columns, the declared NOT NULL set and the store invariant.
- `Session` (session.dfy): the commit.
- `Schemas` (schemas.dfy): serialisation.
- `Cascade` (cascade.dfy): deletions.
- `Handlers` (handlers.dfy): the four handlers as written.
- `Checkout` (checkout.dfy): the checkout as evidently intended.
- `Reviews` (reviews.dfy): the review handler with its rating bound.

Two places where the code falls short of what it evidently intends are
modelled twice, as written and corrected (see "## Findings"):

- Checkout commits the order (app.py:86) and its items (app.py:93) in two separate commits. A refused items commit therefore leaves an order with no items. The as-written handler is `Handlers.CreateOrder`; `Checkout` commits order and items together.
- The comments at models.py:71 and models.py:111 ask for ratings from 1 to 5, but app.py:57 only checks that a rating is present. `Reviews.CreateReviewBounded` adds the bound.

## Model

| member | source | states |
|---|---|---|
| Tables.Filter | app.py:107 | a `filter_by` query selects exactly the rows that meet its condition, and never more rows than the table holds |
| Tables.NextKey | models.py:10 | the key given to a new row is above every key already stored; it is one more than the largest stored key, or 1 when the table holds no key |
| Models.DeclaredUserColumns | models.py:10-12 | under the declared schema a user row meets the NOT NULL columns exactly when it has both an email and a password |
| Models.DeclaredOrderColumns | models.py:43-45 | an order row meets the declared NOT NULL columns exactly when it has a user and a total amount |
| Models.DeclaredItemColumns | models.py:55-58 | an order item row meets the declared NOT NULL columns exactly when it has an order, a product and a quantity |
| Models.DeclaredReviewColumns | models.py:68-72 | a review row meets the declared NOT NULL columns exactly when it has a user, a product, a rating and a comment |
| Models.OrdersOf | app.py:107 | the orders selected for a user are exactly the stored orders whose `user_id` is that user |
| Models.ItemsOf | models.py:49 | an order's `order_items` are exactly the stored items whose `order_id` is that order |
| Session.Commit | app.py:89-93 | a commit that succeeds stores exactly the pending rows, each with a key the database gave it; every one binds only 64-bit integers and meets the enforced NOT NULL columns, and no new user repeats a stored email; without user rows, binding and meeting NOT NULL is all a commit needs |
| Session.InsertKeepsValid | models.py:10-12 | inserting one row that passes the constraint check keeps NOT NULL, distinct keys and unique emails |
| Session.CommitKeepsValid | models.py:10-12 | every successful commit keeps the store valid: NOT NULL columns filled, primary keys distinct, emails unique |
| Session.CommitKeys | app.py:89-93 | each committed row gets the next key of its table in the store that already holds the rows committed before it |
| Session.DuplicateEmailRejected | models.py:11 | a user whose email is already stored is never committed, and the rejection names the unique email column |
| Session.AppendAllItems | models.py:52-58 | storing a batch of order items touches only the items table, where they follow the existing items in batch order |
| Schemas.DumpUserExposes | models.py:80-82 | two users serialise alike exactly when their ids and emails agree, so the password is never exposed |
| Schemas.DumpItems | models.py:101-105 | the serialised items are the given items, one for one, in the same order |
| Schemas.DumpOrder | models.py:95-99 | a serialised order carries the order's id, user and total, and its nested items are exactly the stored items of that order |
| Schemas.DumpOrders | app.py:108-109 | `OrderSchema(many=True)` serialises each order of the list, one for one, in list order |
| Cascade.DeleteUser | models.py:15-16 | deleting a user removes exactly that user, its reviews, its orders and their items; vendors and products stay |
| Cascade.DeleteOrder | models.py:49 | deleting an order removes exactly that order and its items and nothing else |
| Cascade.DeleteProduct | models.py:37 | deleting a product removes exactly that product and its reviews; order items are untouched |
| Cascade.DeleteUserSparesOthers | models.py:15-16 | deleting one user leaves every other user's orders, reviews and order items unchanged and in order |
| Cascade.DeleteUserIdempotent | models.py:15-16 | deleting the same user twice is the same as deleting it once |
| Cascade.DeleteOrderSparesOtherItems | models.py:49 | deleting an order leaves the items of every other order unchanged and leaves none of its own |
| Cascade.DeleteProductOrphansItems | models.py:61-62 | the item-to-product relationship has no cascade: an item naming a deleted product stays, pointing at no product |
| Cascade.DeletesKeepItemsReferencingOrders | models.py:49 | the user and order cascades keep every stored item pointing at a stored order |
| Cascade.DeletesKeepValid | models.py:15-16 | each of the three deletions keeps the store valid |
| Handlers.FirstWithEmail | app.py:38 | the user found has the requested email, and none is found exactly when no stored user has that email |
| Handlers.Login | app.py:32-43 | login never changes the store; it answers 200 with a token for a stored user whose email and password match, 401 "Bad email or password", or 500 when a user has the email but the stored hash or the given password is missing (the hash check raises and nothing catches it); an unknown email always gets 401, and a known email without a password always gets 500 |
| Handlers.LoginIffCredentialsMatch | app.py:38-43 | with unique emails, login succeeds if and only if a stored user has the given email, both passwords are present and the password check accepts the given one |
| Handlers.LoginWithoutEmailRefused | app.py:35-43 | under the declared schema a request without an email is refused with 401 and nothing changes |
| Handlers.CreateReview | app.py:48-67 | a missing rating or comment gives 400 and leaves the store unchanged; with both present the answer is 201 when the caller, the product id and the rating fit a 64-bit INTEGER and 500 otherwise; every answer but 201 leaves the store unchanged |
| Handlers.ReviewAppendsOne | app.py:60-64 | a complete review request whose integers fit adds exactly one review after the existing ones, with the caller, the product from the path, the rating and comment given and the next key; nothing else changes |
| Handlers.CreateOrder | app.py:72-97 | a missing or empty product id list gives 400 and leaves the store unchanged; otherwise the answer is 201 "Order created successfully!" or 500 |
| Handlers.ItemRows | app.py:89-90 | the checkout builds one item row per product id; each lacks at most its quantity, and it binds only when the order key, its product id and the quantity fit a 64-bit INTEGER |
| Handlers.PendingRowsLackColumns | app.py:84-90 | the order the checkout builds lacks exactly its total amount, and each item lacks exactly its quantity |
| Handlers.CheckoutFailsUnderDeclaredSchema | app.py:84-86 | under the declared schema the order's commit is always rejected, for the NULL total amount when the caller id fits, so every checkout with products answers 500 and stores nothing |
| Handlers.CheckoutCallerOverflow | app.py:84-86 | a caller id outside 64 bits makes the order's commit fail under any schema: the answer is 500 and nothing is stored |
| Handlers.OrderCommit | app.py:84-86 | when the total amount is not enforced and the caller id fits, the first commit stores exactly the new order, owned by the caller, under the next key |
| Handlers.CheckoutAfterOrder | app.py:84-97 | once the order is stored, the checkout's answer is decided by the items commit, which runs against the store that already holds the order |
| Handlers.CreateOrder201Iff | app.py:82-97 | a checkout with product ids answers 201 if and only if neither total amount nor quantity is enforced and the caller, the new order key and every product id fit a 64-bit INTEGER; every other such checkout answers 500 |
| Handlers.CheckoutPartialWrite | app.py:86-97 | when the order is accepted under a key that fits but the items are refused (quantity enforced, or a product id outside 64 bits), the answer is 500, the order stays stored and it has no items |
| Handlers.ItemsCommit | app.py:89-93 | when quantity is not enforced and the order key and product ids fit, the items commit succeeds and appends one item per product id, in list order |
| Handlers.CheckoutCreatesOrder | app.py:84-94 | when neither column is enforced and every integer fits, checkout answers 201 and adds exactly one order, owned by the caller; users, vendors, products and reviews do not change |
| Handlers.CheckoutAddsItems | app.py:89-93 | the items table keeps its old items first, then gains one item per product id in list order, duplicates included, each naming the new order and carrying no quantity |
| Handlers.CheckoutOrderItems | app.py:84-94 | when every item names a stored order, the new order has exactly as many items as product ids were given |
| Handlers.GetOrders | app.py:102-112 | the store is unchanged; for a caller id that fits, the answer is 200 with one serialised order per order of the caller, exactly the caller's orders, in storage order; otherwise the query fails and the answer is 500 |
| Checkout.CreateOrderAtomic | app.py:72-97 | corrected checkout: a missing or empty list gives 400, and any answer other than 201 leaves the store unchanged |
| Checkout.CheckoutCommitStores | app.py:82-94 | the single checkout commit, when it succeeds, stores the order with its total under the key its items name, plus one item per product id with quantity 1 |
| Checkout.AtomicCheckoutAllOrNothing | app.py:82-97 | corrected checkout either answers 500 with the store unchanged, or answers 201 having stored the order together with every one of its items |
| Checkout.AtomicCheckoutSucceeds | app.py:84-94 | under the declared schema the corrected checkout answers 201 for every non-empty product id list whose integers fit |
| Reviews.OutOfRangeRatingStored | app.py:57-64 | the handler as written answers 201 to a rating of 6 and appends exactly that review, under the next key, to the stored reviews |
| Reviews.CreateReviewBounded | models.py:71 | corrected review handler: a present rating outside 1 to 5 is refused with 400 and nothing stored; it answers 201 exactly when rating and comment are present, the rating is between 1 and 5 and the caller and product ids fit; any other answer leaves the store unchanged |
| Reviews.BoundedReviewKeepsRatingsInRange | models.py:71 | the corrected handler keeps every stored rating between 1 and 5 |

## Left out

- `create_user.py` is not part of this model. It is a console command that reads credentials from the terminal, and the file still holds unresolved merge-conflict markers.
- The home route (`/`) returns a fixed greeting and touches no data.
- Flask configuration, routing, logging and `app.run` are plumbing with no data behaviour.
- Token handling by `jwt_required` and `get_jwt_identity` is out of scope. The caller is the identity of an already verified token. A request with a missing or bad token is refused by the extension before any handler runs, and that refusal is not modelled.
- Handlers.Login: password verification (bcrypt) is the parameter `passwordMatches`, so the contract says what login does with its answer, not how hashes are checked. A stored password that is not a well-formed bcrypt hash also makes the check raise; the model treats every stored password as well formed.
- Float columns (`price`, `total_amount`) are the opaque `Amount`. No arithmetic on them is modelled. The corrected checkout takes the total as a parameter instead of summing product prices.
- Database failures other than constraint violations and integers that do not fit are not modelled: disk errors, locking, a lost connection. Within the model, the 500 answers of the handlers come from those two causes, and from login's hash check on a missing password.
- Strings are sequences of Unicode scalar values. A JSON string holding a lone surrogate escape such as `"\ud800"` is accepted by Python's `json` but cannot be encoded by the SQLite driver or by the bcrypt check, so `create_review` answers 500 for such a comment and `login` raises (500) for such an email or password. The model cannot express such a string and does not state these answers.
- Tables.NextKey: once the largest key is 2^63-1, SQLite picks a random unused key instead of one more. The model gives one more, which then does not fit; the checkout success lemmas require the new order's key to fit and so cover only tables below that point. In that state `Handlers.CreateOrder` stores the order under 2^63 and answers 500 from the items commit, where SQLite would pick a fitting key and could answer 201; this answer is an artifact of the model.
- Handlers.CheckoutPartialWrite: requires the new order's key to fit, because a key outside 64 bits only arises from the key assignment above, which SQLite does not make.
- The caller is the id of a stored user, so it always fits in practice; the handlers still state what happens when it does not.
- JSON decoding is out of scope. A body that is not an object, a non-list `product_ids`, or a non-integer rating or id is not modelled. Only absent or null values (`None`) and lists or integers are.
- Other falsy values that `not product_ids` would also reject (`0`, `""`, `{}`) are not modelled, since `product_ids` is a list.
- Foreign keys are not enforced, as in SQLite by default. Product ids in a checkout or a review are never checked to exist, and the model does not check them either.
- Handlers.FirstWithEmail: `.first()` without an `ORDER BY` is modelled as the first match in storage order. A SQL engine may return any matching row. The difference only shows when two users share an email, which the unique constraint rules out.
- Handlers.GetOrders: `.all()` without an `ORDER BY` is modelled as storage order, which SQLite's table scan gives in rowid order. `Models.Valid` does not require keys to increase along a table, so for a store whose keys are out of order the model lists orders in storage order, not key order. Keys the model assigns exceed every stored key (`Tables.NextKey`), so commits never put keys out of order.
- After a failed commit the source does not call `rollback`. Flask-SQLAlchemy removes the session when the request ends, so each request gets a fresh session, as the model assumes.
- Vendor and product creation, vendor deletion, and `VendorSchema`, `ProductSchema` and `ReviewSchema` are not used by any handler.
- Concurrency is not modelled: requests are applied one at a time.

## Findings

| source | as written | input that shows it | evidently intended | confidence | as-written member | corrected member |
|---|---|---|---|---|---|---|
| app.py:84-86 | the order is built without `total_amount` and items without `quantity`, both declared NOT NULL, so the first commit always fails | any checkout with a non-empty `product_ids`, e.g. `[1]` | the order carries its total and each item a quantity, and checkout answers 201 | high — not executed | Handlers.CheckoutFailsUnderDeclaredSchema | Checkout.AtomicCheckoutSucceeds |
| app.py:86-93 | order and items are committed separately, so a refused items commit leaves an order with no items | a schema where `total_amount` accepts NULL but `quantity` does not, with `product_ids` = `[1]` | order and items are stored together or not at all | high — not executed | Handlers.CheckoutPartialWrite | Checkout.AtomicCheckoutAllOrNothing |
| app.py:57-64 | the rating is only checked for presence; the column comment asks for 1 to 5 | a review with rating 6 | a rating outside 1..5 is refused with 400 and nothing is stored | medium — not executed | Reviews.OutOfRangeRatingStored | Reviews.CreateReviewBounded |

=== FILE: cascade.dfy ===
/** The cascade rules of models.py as explicit deletions. A user owns its
    reviews and orders (`cascade='all, delete-orphan'`), an order owns its
    items, a product owns its reviews; the item-to-product relationship has
    no cascade. */
module Cascade {
  import opened Tables
  import opened Models

  /** The ids of the orders `uid` owns. */
  function OrderIdsOf(s: Store, uid: int): set<int>
  {
    set o | o in s.orders && o.userId == Some(uid) :: o.id
  }

  function InAnyOrder(ids: set<int>): OrderItem -> bool
  {
    (it: OrderItem) => it.orderId.Some? && it.orderId.value in ids
  }

  /** Deleting the user `uid`: its reviews and orders go with it, and with
      the orders their items. */
  function DeleteUser(s: Store, uid: int): (r: Store)
    ensures forall u :: u in r.users <==> u in s.users && u.id != uid
    ensures forall v :: v in r.reviews <==> v in s.reviews && v.userId != Some(uid)
    ensures forall o :: o in r.orders <==> o in s.orders && o.userId != Some(uid)
    ensures forall it :: it in r.items <==>
      it in s.items && !(exists o :: o in s.orders && o.userId == Some(uid) && it.orderId == Some(o.id))
    ensures r.vendors == s.vendors && r.products == s.products
  {
    Store(
      Filter(s.users, Not(UserIs(uid))),
      s.vendors,
      s.products,
      Filter(s.orders, Not(OwnedBy(uid))),
      Filter(s.items, Not(InAnyOrder(OrderIdsOf(s, uid)))),
      Filter(s.reviews, Not(ReviewBy(uid))))
  }

  /** Deleting the order `oid`: exactly its items go with it. */
  function DeleteOrder(s: Store, oid: int): (r: Store)
    ensures forall o :: o in r.orders <==> o in s.orders && o.id != oid
    ensures forall it :: it in r.items <==> it in s.items && it.orderId != Some(oid)
    ensures r.users == s.users && r.vendors == s.vendors && r.products == s.products && r.reviews == s.reviews
  {
    s.(orders := Filter(s.orders, Not(OrderIs(oid))), items := Filter(s.items, Not(InOrder(oid))))
  }

  /** Deleting the product `pid`: its reviews go with it; order items that
      name it stay. */
  function DeleteProduct(s: Store, pid: int): (r: Store)
    ensures forall p :: p in r.products <==> p in s.products && p.id != pid
    ensures forall v :: v in r.reviews <==> v in s.reviews && v.productId != Some(pid)
    ensures r.items == s.items
    ensures r.users == s.users && r.vendors == s.vendors && r.orders == s.orders
  {
    s.(products := Filter(s.products, Not(ProductIs(pid))), reviews := Filter(s.reviews, Not(ReviewOf(pid))))
  }

  /** Deleting one user leaves every other user's orders, reviews and order
      items exactly as they were, in the same order. */
  lemma DeleteUserSparesOthers(s: Store, uid: int, other: int)
    requires other != uid
    requires Unique(s.orders, OrderPk)
    ensures OrdersOf(DeleteUser(s, uid), other) == OrdersOf(s, other)
    ensures Filter(DeleteUser(s, uid).reviews, ReviewBy(other)) == Filter(s.reviews, ReviewBy(other))
    ensures forall o :: o in s.orders && o.userId == Some(other) ==> ItemsOf(DeleteUser(s, uid), o.id) == ItemsOf(s, o.id)
  {
    FilterAbsorb(s.orders, Not(OwnedBy(uid)), OwnedBy(other));
    FilterAbsorb(s.reviews, Not(ReviewBy(uid)), ReviewBy(other));
    var doomed := OrderIdsOf(s, uid);
    forall o | o in s.orders && o.userId == Some(other)
      ensures ItemsOf(DeleteUser(s, uid), o.id) == ItemsOf(s, o.id)
    {
      forall o' | o' in s.orders && o'.userId == Some(uid)
        ensures o'.id != o.id
      {
        UniqueMembers(s.orders, OrderPk, o, o');
      }
      assert o.id !in doomed;
      FilterAbsorb(s.items, Not(InAnyOrder(doomed)), InOrder(o.id));
    }
  }

  /** Deleting a user twice is deleting it once. */
  lemma DeleteUserIdempotent(s: Store, uid: int)
    ensures DeleteUser(DeleteUser(s, uid), uid) == DeleteUser(s, uid)
  {
    var r := DeleteUser(s, uid);
    FilterAbsorb(s.users, Not(UserIs(uid)), Not(UserIs(uid)));
    FilterAbsorb(s.orders, Not(OwnedBy(uid)), Not(OwnedBy(uid)));
    FilterAbsorb(s.reviews, Not(ReviewBy(uid)), Not(ReviewBy(uid)));
    assert OrderIdsOf(r, uid) == {};
    FilterAll(r.items, Not(InAnyOrder({})));
  }

  /** Deleting one order leaves the items of every other order as they were
      and its own items gone. */
  lemma DeleteOrderSparesOtherItems(s: Store, oid: int, other: int)
    requires other != oid
    ensures ItemsOf(DeleteOrder(s, oid), other) == ItemsOf(s, other)
    ensures ItemsOf(DeleteOrder(s, oid), oid) == []
  {
    FilterAbsorb(s.items, Not(InOrder(oid)), InOrder(other));
    FilterNone(DeleteOrder(s, oid).items, InOrder(oid));
  }

  /** The missing cascade: after a product is deleted, an order item that
      named it is still stored and now names no product. */
  lemma DeleteProductOrphansItems(s: Store, pid: int, it: OrderItem)
    requires it in s.items && it.productId == Some(pid)
    ensures it in DeleteProduct(s, pid).items
    ensures forall p :: p in DeleteProduct(s, pid).products ==> Some(p.id) != it.productId
  {
  }

  /** The order cascades keep every item pointing at a stored order. */
  lemma DeletesKeepItemsReferencingOrders(s: Store, uid: int, oid: int)
    requires ItemsReferenceOrders(s)
    ensures ItemsReferenceOrders(DeleteUser(s, uid))
    ensures ItemsReferenceOrders(DeleteOrder(s, oid))
  {
  }

  /** Deleting a user, an order or a product keeps the store valid. */
  lemma DeletesKeepValid(notNull: set<Column>, s: Store, uid: int, oid: int, pid: int)
    requires Valid(notNull, s)
    ensures Valid(notNull, DeleteUser(s, uid))
    ensures Valid(notNull, DeleteOrder(s, oid))
    ensures Valid(notNull, DeleteProduct(s, pid))
  {
    FilterKeepsUnique(s.users, Not(UserIs(uid)), UserPk);
    FilterKeepsUnique(s.users, Not(UserIs(uid)), EmailOf);
    FilterKeepsUnique(s.orders, Not(OwnedBy(uid)), OrderPk);
    FilterKeepsUnique(s.items, Not(InAnyOrder(OrderIdsOf(s, uid))), ItemPk);
    FilterKeepsUnique(s.reviews, Not(ReviewBy(uid)), ReviewPk);
    FilterKeepsUnique(s.orders, Not(OrderIs(oid)), OrderPk);
    FilterKeepsUnique(s.items, Not(InOrder(oid)), ItemPk);
    FilterKeepsUnique(s.products, Not(ProductIs(pid)), ProductPk);
    FilterKeepsUnique(s.reviews, Not(ReviewOf(pid)), ReviewPk);
  }
}

=== FILE: checkout.dfy ===
/** Checkout as `create_order` evidently means it: the order carries its
    total amount, every item a quantity, and order and items are committed
    together, so either all of them are stored or none. The total is a
    parameter: computing it from product prices is floating-point arithmetic
    the model leaves out. The order's key is the one the database will give
    it, so the items can name it inside the same commit. */
module Checkout {
  import opened Tables
  import opened Models
  import opened Session
  import opened Handlers

  /** The rows of one checkout: the order first, then its items. */
  function CheckoutRows(s: Store, caller: int, productIds: seq<int>, total: Amount): seq<Row>
  {
    [OrderRow(Order(0, Some(caller), Some(total)))] + ItemRows(NextKey(s.orders, OrderPk), productIds, Some(1))
  }

  /** POST /checkout, corrected. */
  function CreateOrderAtomic(notNull: set<Column>, s: Store, caller: int, body: CheckoutRequest, total: Amount): (out: Outcome)
    ensures body.productIds.None? || body.productIds == Some([])
      ==> out == Outcome(Response(400, Text("error", ProductIdsRequired)), s)
    ensures out.response.status != 201 ==> out.store == s
  {
    if body.productIds.None? || |body.productIds.value| == 0 then
      Outcome(Response(400, Text("error", ProductIdsRequired)), s)
    else
      match Commit(notNull, s, CheckoutRows(s, caller, body.productIds.value, total))
      case Rejected(_) => Outcome(Response(500, Text("error", OrderFailed)), s)
      case Committed(s1, _) => Outcome(Response(201, Text("message", OrderCreated)), s1)
  }

  /** `s1` is `s` with the order of `caller` stored under the key its items
      name, after the existing orders, and one item per product id, in list
      order, after the existing items; no other table changes. */
  predicate Placed(s: Store, s1: Store, caller: int, productIds: seq<int>, total: Amount)
  {
    var oid := NextKey(s.orders, OrderPk);
    && s1.orders == s.orders + [Order(oid, Some(caller), Some(total))]
    && |s1.items| == |s.items| + |productIds|
    && s1.items[..|s.items|] == s.items
    && (forall i :: 0 <= i < |productIds| ==>
          && s1.items[|s.items| + i].orderId == Some(oid)
          && s1.items[|s.items| + i].productId == Some(productIds[i])
          && s1.items[|s.items| + i].quantity == Some(1))
    && s1.users == s.users && s1.vendors == s.vendors
    && s1.products == s.products && s1.reviews == s.reviews
  }

  /** Storing a batch that starts with one row is storing that row first. */
  lemma AppendAllCons(s: Store, r: Row, rest: seq<Row>)
    ensures AppendAll(s, [r] + rest) == AppendAll(Append(s, r), rest)
  {
  }

  /** The checkout rows stamped with their keys: the order under the first
      key, then its lines. */
  lemma StampCheckoutRows(s: Store, caller: int, productIds: seq<int>, total: Amount, ids: seq<int>)
    requires |ids| == 1 + |productIds|
    requires ids[0] == NextKey(s.orders, OrderPk)
    ensures Stamp(CheckoutRows(s, caller, productIds, total), ids)
      == [OrderRow(Order(ids[0], Some(caller), Some(total)))] + Stamp(ItemRows(ids[0], productIds, Some(1)), ids[1..])
  {
  }

  /** The stamped lines are the items of `StoredItems`. */
  lemma StampedLines(oid: int, productIds: seq<int>, ids: seq<int>)
    requires |ids| == |productIds|
    ensures forall i :: 0 <= i < |productIds| ==> Stamp(ItemRows(oid, productIds, Some(1)), ids)[i].ItemRow?
    ensures ItemsIn(Stamp(ItemRows(oid, productIds, Some(1)), ids)) == StoredItems(ids, oid, productIds, Some(1))
  {
  }

  /** The order and its lines, appended, are a placement. */
  lemma LinesPlaced(s: Store, caller: int, productIds: seq<int>, total: Amount, ids: seq<int>)
    requires |ids| == |productIds|
    ensures var oid := NextKey(s.orders, OrderPk);
      Placed(s, s.(orders := s.orders + [Order(oid, Some(caller), Some(total))],
                   items := s.items + StoredItems(ids, oid, productIds, Some(1))), caller, productIds, total)
  {
  }

  /** A checkout commit that succeeds places the order and all its items. */
  lemma CheckoutCommitStores(notNull: set<Column>, s: Store, caller: int, productIds: seq<int>, total: Amount)
    ensures var c := Commit(notNull, s, CheckoutRows(s, caller, productIds, total));
      c.Committed? ==> Placed(s, c.store, caller, productIds, total)
  {
    if !Commit(notNull, s, CheckoutRows(s, caller, productIds, total)).Committed? {
      return;
    }
    var oid := NextKey(s.orders, OrderPk);
    var c := Commit(notNull, s, CheckoutRows(s, caller, productIds, total));
    var order := Order(oid, Some(caller), Some(total));
    var lines := Stamp(ItemRows(oid, productIds, Some(1)), c.ids[1..]);
    StampCheckoutRows(s, caller, productIds, total, c.ids);
    AppendAllCons(s, OrderRow(order), lines);
    var s0 := s.(orders := s.orders + [order]);
    StampedLines(oid, productIds, c.ids[1..]);
    AppendAllItems(s0, lines);
    assert c.store == s0.(items := s.items + StoredItems(c.ids[1..], oid, productIds, Some(1)));
    LinesPlaced(s, caller, productIds, total, c.ids[1..]);
  }

  /** All or nothing: a checkout either stores the order together with every
      one of its items, or leaves the store exactly as it was. */
  lemma AtomicCheckoutAllOrNothing(notNull: set<Column>, s: Store, caller: int, productIds: seq<int>, total: Amount)
    requires |productIds| > 0
    ensures var out := CreateOrderAtomic(notNull, s, caller, CheckoutRequest(Some(productIds)), total);
      || out == Outcome(Response(500, Text("error", OrderFailed)), s)
      || (out.response == Response(201, Text("message", OrderCreated)) && Placed(s, out.store, caller, productIds, total))
  {
    CheckoutCommitStores(notNull, s, caller, productIds, total);
  }

  /** Under the declared schema the corrected checkout succeeds for every
      non-empty list of product ids whose integers the database can hold. */
  lemma AtomicCheckoutSucceeds(s: Store, caller: int, productIds: seq<int>, total: Amount)
    requires |productIds| > 0
    requires CheckoutFits(s, caller, productIds)
    ensures CreateOrderAtomic(DeclaredNotNull, s, caller, CheckoutRequest(Some(productIds)), total).response
      == Response(201, Text("message", OrderCreated))
  {
  }
}

=== FILE: handlers.dfy ===
/** The request handlers of app.py as transitions from a store, a caller and
    a request body to a response and a new store. The caller is the identity
    carried by an already verified bearer token; password verification is a
    predicate the model is given, not one it defines. */
module Handlers {
  import opened Tables
  import opened Models
  import opened Session
  import opened Schemas

  /** A bearer token; its encoding and signature are left out, it carries
      the identity it was issued for. */
  datatype Token = Token(identity: int)

  /** A response body: JSON, or the generic error page the framework sends
      when a handler raises an exception it does not catch. */
  datatype Body =
    | AccessToken(token: Token)
    | Text(key: string, text: string)
    | OrderList(orders: seq<OrderDump>)
    | UncaughtError

  datatype Response = Response(status: int, body: Body)

  datatype Outcome = Outcome(response: Response, store: Store)

  // Request bodies; a key that is absent or JSON null reads as `None`.
  datatype Credentials = Credentials(email: Option<string>, password: Option<string>)
  datatype ReviewRequest = ReviewRequest(rating: Option<int>, comment: Option<string>)
  datatype CheckoutRequest = CheckoutRequest(productIds: Option<seq<int>>)

  const BadCredentials := "Bad email or password"
  const ReviewFieldsRequired := "Rating and comment are required."
  const ReviewCreated := "Review created successfully!"
  const ReviewFailed := "An error occurred while creating the review."
  const ProductIdsRequired := "Product IDs are required."
  const OrderCreated := "Order created successfully!"
  const OrderFailed := "An error occurred while creating the order."
  const OrdersFailed := "An error occurred while fetching orders."

  /** `User.query.filter_by(email=email).first()`; a NULL email matches
      users whose email is NULL. */
  function FirstWithEmail(users: seq<User>, email: Option<string>): (r: Option<User>)
    ensures r.Some? ==> r.value in users && r.value.email == email
    ensures r.None? <==> forall u :: u in users ==> u.email != email
  {
    var found := Filter(users, HasEmail(email));
    if |found| == 0 then None else Some(found[0])
  }

  /** POST /login. The hash check raises when the stored hash or the given
      password is missing, and nothing catches it. */
  function Login(s: Store, body: Credentials, passwordMatches: (string, string) -> bool): (out: Outcome)
    ensures out.store == s
    ensures || out.response.status == 200
            || out.response == Response(401, Text("msg", BadCredentials))
            || out.response == Response(500, UncaughtError)
    ensures out.response.status == 200 ==>
      exists u :: u in s.users && u.email == body.email && u.password.Some? && body.password.Some?
        && passwordMatches(u.password.value, body.password.value)
        && out.response.body == AccessToken(Token(u.id))
    ensures out.response.status == 500 ==>
      exists u :: u in s.users && u.email == body.email && (u.password.None? || body.password.None?)
    ensures (forall u :: u in s.users ==> u.email != body.email) ==> out.response.status == 401
    ensures (exists u :: u in s.users && u.email == body.email) && body.password.None?
      ==> out.response == Response(500, UncaughtError)
  {
    match FirstWithEmail(s.users, body.email)
    case Some(u) =>
      if u.password.None? || body.password.None? then Outcome(Response(500, UncaughtError), s)
      else if passwordMatches(u.password.value, body.password.value) then Outcome(Response(200, AccessToken(Token(u.id))), s)
      else Outcome(Response(401, Text("msg", BadCredentials)), s)
    case None => Outcome(Response(401, Text("msg", BadCredentials)), s)
  }

  /** With unique emails, login succeeds exactly when the user with the given
      email exists, a password is given and the check accepts it. */
  lemma LoginIffCredentialsMatch(s: Store, body: Credentials, passwordMatches: (string, string) -> bool)
    requires Unique(s.users, EmailOf)
    requires body.email.Some?
    ensures Login(s, body, passwordMatches).response.status == 200
      <==> exists u :: u in s.users && u.email == body.email && u.password.Some? && body.password.Some?
             && passwordMatches(u.password.value, body.password.value)
  {
    if u :| (u in s.users && u.email == body.email && u.password.Some? && body.password.Some?
            && passwordMatches(u.password.value, body.password.value)) {
      var first := FirstWithEmail(s.users, body.email).value;
      if first != u {
        UniqueMembers(s.users, EmailOf, u, first);
      }
    }
  }

  /** Under the declared schema no user has a NULL email, so a login request
      without an email is always refused. */
  lemma LoginWithoutEmailRefused(s: Store, body: Credentials, passwordMatches: (string, string) -> bool)
    requires Valid(DeclaredNotNull, s)
    requires body.email.None?
    ensures Login(s, body, passwordMatches) == Outcome(Response(401, Text("msg", BadCredentials)), s)
  {
    forall u | u in s.users
      ensures u.email.Some?
    {
      DeclaredUserColumns(u);
    }
  }

  /** POST /products/<product_id>/reviews. */
  function CreateReview(notNull: set<Column>, s: Store, caller: int, productId: int, body: ReviewRequest): (out: Outcome)
    ensures body.rating.None? || body.comment.None?
      ==> out == Outcome(Response(400, Text("error", ReviewFieldsRequired)), s)
    ensures body.rating.Some? && body.comment.Some? ==>
      out.response == if IsInteger(caller) && IsInteger(productId) && IsInteger(body.rating.value)
                      then Response(201, Text("message", ReviewCreated))
                      else Response(500, Text("error", ReviewFailed))
    ensures out.response.status != 201 ==> out.store == s
  {
    if body.rating.None? || body.comment.None? then
      Outcome(Response(400, Text("error", ReviewFieldsRequired)), s)
    else
      var row := ReviewRow(Review(0, Some(caller), Some(productId), body.rating, body.comment));
      assert NullColumns(row) == {};
      match Commit(notNull, s, [row])
      case Rejected(_) => Outcome(Response(500, Text("error", ReviewFailed)), s)
      case Committed(s1, _) => Outcome(Response(201, Text("message", ReviewCreated)), s1)
  }

  /** A review with both fields present and integers the database can hold
      adds exactly one review, after the existing ones, with the caller, the
      product of the path and the given rating and comment; the rating is not
      range-checked. */
  lemma ReviewAppendsOne(notNull: set<Column>, s: Store, caller: int, productId: int, rating: int, comment: string)
    requires IsInteger(caller) && IsInteger(productId) && IsInteger(rating)
    ensures CreateReview(notNull, s, caller, productId, ReviewRequest(Some(rating), Some(comment))).store
      == s.(reviews := s.reviews + [Review(NextKey(s.reviews, ReviewPk), Some(caller), Some(productId), Some(rating), Some(comment))])
  {
    var row := ReviewRow(Review(0, Some(caller), Some(productId), Some(rating), Some(comment)));
    assert NullColumns(row) == {};
    var c := Commit(notNull, s, [row]);
    assert Stamp([row], c.ids) == [WithId(row, c.ids[0])];
  }

  /** The order `create_order` builds: no total amount. */
  function PendingOrder(caller: int): Order
  {
    Order(0, Some(caller), None)
  }

  /** The item rows of a checkout: one per product id, in list order, each
      naming order `oid` and carrying `quantity` (`create_order` sets none).
      A row lacks at most its quantity, and it binds only when the order key,
      its product id and the quantity fit an INTEGER. */
  function ItemRows(oid: int, productIds: seq<int>, quantity: Option<int>): (rs: seq<Row>)
    ensures |rs| == |productIds|
    ensures forall i :: 0 <= i < |rs| ==>
      && NullColumns(rs[i]) == NullIf(quantity, OrderItemsQuantity)
      && (Fits(rs[i]) <==> IsInteger(oid) && IsInteger(productIds[i]) && FitsOrNull(quantity))
  {
    seq(|productIds|, i requires 0 <= i < |productIds| => ItemRow(OrderItem(0, Some(oid), Some(productIds[i]), quantity)))
  }

  /** The items of `ItemRows` as stored, with the keys `ids` the database gave
      them. */
  function StoredItems(ids: seq<int>, oid: int, productIds: seq<int>, quantity: Option<int>): seq<OrderItem>
    requires |ids| == |productIds|
  {
    seq(|productIds|, i requires 0 <= i < |productIds| => OrderItem(ids[i], Some(oid), Some(productIds[i]), quantity))
  }

  /** Every integer a checkout hands to the database fits an INTEGER: the
      caller, the new order's key and each product id. */
  predicate CheckoutFits(s: Store, caller: int, productIds: seq<int>)
  {
    && IsInteger(caller)
    && IsInteger(NextKey(s.orders, OrderPk))
    && forall i :: 0 <= i < |productIds| ==> IsInteger(productIds[i])
  }

  /** POST /checkout: the order is committed first, its items in a second
      commit. */
  function CreateOrder(notNull: set<Column>, s: Store, caller: int, body: CheckoutRequest): (out: Outcome)
    ensures body.productIds.None? || body.productIds == Some([])
      ==> out == Outcome(Response(400, Text("error", ProductIdsRequired)), s)
    ensures body.productIds.Some? && |body.productIds.value| > 0 ==>
      out.response in {Response(201, Text("message", OrderCreated)), Response(500, Text("error", OrderFailed))}
  {
    if body.productIds.None? || |body.productIds.value| == 0 then
      Outcome(Response(400, Text("error", ProductIdsRequired)), s)
    else
      match Commit(notNull, s, [OrderRow(PendingOrder(caller))])
      case Rejected(_) => Outcome(Response(500, Text("error", OrderFailed)), s)
      case Committed(s1, ids) =>
        match Commit(notNull, s1, ItemRows(ids[0], body.productIds.value, None))
        case Rejected(_) => Outcome(Response(500, Text("error", OrderFailed)), s1)
        case Committed(s2, _) => Outcome(Response(201, Text("message", OrderCreated)), s2)
  }

  /** The order lacks only its total amount and each item only its
      quantity. */
  lemma PendingRowsLackColumns(caller: int, oid: int, productIds: seq<int>)
    ensures NullColumns(OrderRow(PendingOrder(caller))) == {OrdersTotalAmount}
    ensures forall i :: 0 <= i < |productIds| ==> NullColumns(ItemRows(oid, productIds, None)[i]) == {OrderItemsQuantity}
  {
  }

  /** Under the declared schema every checkout with product ids fails: the
      order is refused (for its NULL total amount, once the caller fits),
      nothing is stored and the answer is 500. */
  lemma CheckoutFailsUnderDeclaredSchema(s: Store, caller: int, productIds: seq<int>)
    requires |productIds| > 0
    ensures Commit(DeclaredNotNull, s, [OrderRow(PendingOrder(caller))]).Rejected?
    ensures IsInteger(caller) ==>
      Commit(DeclaredNotNull, s, [OrderRow(PendingOrder(caller))]) == Rejected(NotNullViolation({OrdersTotalAmount}))
    ensures CreateOrder(DeclaredNotNull, s, caller, CheckoutRequest(Some(productIds)))
      == Outcome(Response(500, Text("error", OrderFailed)), s)
  {
    assert NullColumns(OrderRow(PendingOrder(caller))) * DeclaredNotNull == {OrdersTotalAmount};
  }

  /** A caller id the database cannot hold makes the order's commit fail:
      nothing is stored and the answer is 500. */
  lemma CheckoutCallerOverflow(notNull: set<Column>, s: Store, caller: int, productIds: seq<int>)
    requires |productIds| > 0
    requires !IsInteger(caller)
    ensures CreateOrder(notNull, s, caller, CheckoutRequest(Some(productIds)))
      == Outcome(Response(500, Text("error", OrderFailed)), s)
  {
  }

  /** The new order of a checkout is committed alone: the store gains exactly
      that order. */
  lemma OrderCommit(notNull: set<Column>, s: Store, caller: int)
    requires OrdersTotalAmount !in notNull && IsInteger(caller)
    ensures Commit(notNull, s, [OrderRow(PendingOrder(caller))])
      == Committed(s.(orders := s.orders + [Order(NextKey(s.orders, OrderPk), Some(caller), None)]), [NextKey(s.orders, OrderPk)])
  {
    var row := OrderRow(PendingOrder(caller));
    assert NullColumns(row) == {OrdersTotalAmount};
    var c := Commit(notNull, s, [row]);
    assert Stamp([row], c.ids) == [WithId(row, c.ids[0])];
  }

  /** A checkout whose order is accepted answers with the outcome of its
      items commit, made against the store that already holds the order. */
  lemma CheckoutAfterOrder(notNull: set<Column>, s: Store, caller: int, productIds: seq<int>)
    requires |productIds| > 0
    requires OrdersTotalAmount !in notNull && IsInteger(caller)
    ensures var oid := NextKey(s.orders, OrderPk);
      var s1 := s.(orders := s.orders + [Order(oid, Some(caller), None)]);
      var c := Commit(notNull, s1, ItemRows(oid, productIds, None));
      CreateOrder(notNull, s, caller, CheckoutRequest(Some(productIds)))
        == if c.Committed? then Outcome(Response(201, Text("message", OrderCreated)), c.store)
           else Outcome(Response(500, Text("error", OrderFailed)), s1)
  {
    OrderCommit(notNull, s, caller);
  }

  /** Checkout is not atomic: when the order is accepted but its items are
      refused (a quantity is required, or a product id does not fit an
      INTEGER), the order stays stored without any item and the answer is
      500. */
  lemma CheckoutPartialWrite(notNull: set<Column>, s: Store, caller: int, productIds: seq<int>)
    requires |productIds| > 0
    requires OrdersTotalAmount !in notNull && IsInteger(caller) && IsInteger(NextKey(s.orders, OrderPk))
    requires OrderItemsQuantity in notNull || exists i :: 0 <= i < |productIds| && !IsInteger(productIds[i])
    ensures var out := CreateOrder(notNull, s, caller, CheckoutRequest(Some(productIds)));
      && out.response == Response(500, Text("error", OrderFailed))
      && out.store == s.(orders := s.orders + [Order(NextKey(s.orders, OrderPk), Some(caller), None)])
      && (ItemsReferenceOrders(s) ==> ItemsOf(out.store, NextKey(s.orders, OrderPk)) == [])
  {
    var oid := NextKey(s.orders, OrderPk);
    var s1 := s.(orders := s.orders + [Order(oid, Some(caller), None)]);
    CheckoutAfterOrder(notNull, s, caller, productIds);
    var rows := ItemRows(oid, productIds, None);
    if OrderItemsQuantity in notNull {
      assert !Admits(notNull, rows[0]);
    } else {
      var i :| 0 <= i < |productIds| && !IsInteger(productIds[i]);
      assert !Fits(rows[i]);
    }
    if ItemsReferenceOrders(s) {
      forall it | it in s1.items
        ensures it.orderId != Some(oid)
      {
        if it.orderId.Some? {
          var o :| o in s.orders && Some(o.id) == it.orderId;
        }
      }
      FilterNone(s1.items, InOrder(oid));
    }
  }

  /** The items commit of a checkout, where the quantity is not enforced and
      every integer fits: the items table gains one item per product id, in
      list order. */
  lemma ItemsCommit(notNull: set<Column>, s: Store, oid: int, productIds: seq<int>)
    requires OrderItemsQuantity !in notNull
    requires IsInteger(oid) && forall i :: 0 <= i < |productIds| ==> IsInteger(productIds[i])
    ensures var c := Commit(notNull, s, ItemRows(oid, productIds, None));
      && c.Committed?
      && |c.ids| == |productIds|
      && c.store == s.(items := s.items + StoredItems(c.ids, oid, productIds, None))
  {
    var rows := ItemRows(oid, productIds, None);
    PendingRowsLackColumns(0, oid, productIds);
    var c := Commit(notNull, s, rows);
    var stamped := Stamp(rows, c.ids);
    AppendAllItems(s, stamped);
    assert ItemsIn(stamped) == StoredItems(c.ids, oid, productIds, None);
  }

  /** Where neither the total amount nor the quantity is enforced and every
      integer fits, checkout answers 201 and stores one new order, owned by
      the caller, after the existing ones; users, vendors, products and
      reviews do not change. */
  lemma CheckoutCreatesOrder(notNull: set<Column>, s: Store, caller: int, productIds: seq<int>)
    requires |productIds| > 0
    requires OrdersTotalAmount !in notNull && OrderItemsQuantity !in notNull
    requires CheckoutFits(s, caller, productIds)
    ensures var out := CreateOrder(notNull, s, caller, CheckoutRequest(Some(productIds)));
      && out.response == Response(201, Text("message", OrderCreated))
      && out.store.orders == s.orders + [Order(NextKey(s.orders, OrderPk), Some(caller), None)]
      && out.store.users == s.users && out.store.vendors == s.vendors
      && out.store.products == s.products && out.store.reviews == s.reviews
  {
    var oid := NextKey(s.orders, OrderPk);
    var s1 := s.(orders := s.orders + [Order(oid, Some(caller), None)]);
    CheckoutAfterOrder(notNull, s, caller, productIds);
    ItemsCommit(notNull, s1, oid, productIds);
  }

  /** Under the same conditions the items table gains, after the existing
      items, one item per product id in list order, repeated ids included,
      each naming the new order and carrying no quantity. */
  lemma CheckoutAddsItems(notNull: set<Column>, s: Store, caller: int, productIds: seq<int>)
    requires |productIds| > 0
    requires OrdersTotalAmount !in notNull && OrderItemsQuantity !in notNull
    requires CheckoutFits(s, caller, productIds)
    ensures var items := CreateOrder(notNull, s, caller, CheckoutRequest(Some(productIds))).store.items;
      && |items| == |s.items| + |productIds|
      && items[..|s.items|] == s.items
      && forall i :: 0 <= i < |productIds| ==>
           && items[|s.items| + i].orderId == Some(NextKey(s.orders, OrderPk))
           && items[|s.items| + i].productId == Some(productIds[i])
           && items[|s.items| + i].quantity.None?
  {
    var oid := NextKey(s.orders, OrderPk);
    var s1 := s.(orders := s.orders + [Order(oid, Some(caller), None)]);
    CheckoutAfterOrder(notNull, s, caller, productIds);
    ItemsCommit(notNull, s1, oid, productIds);
    var c := Commit(notNull, s1, ItemRows(oid, productIds, None));
    var added := StoredItems(c.ids, oid, productIds, None);
    assert c.store.items == s.items + added;
  }

  /** When every stored item names a stored order, the order a successful
      checkout creates has exactly one item per product id. */
  lemma CheckoutOrderItems(notNull: set<Column>, s: Store, caller: int, productIds: seq<int>)
    requires |productIds| > 0
    requires OrdersTotalAmount !in notNull && OrderItemsQuantity !in notNull
    requires CheckoutFits(s, caller, productIds)
    requires ItemsReferenceOrders(s)
    ensures var out := CreateOrder(notNull, s, caller, CheckoutRequest(Some(productIds)));
      |ItemsOf(out.store, NextKey(s.orders, OrderPk))| == |productIds|
  {
    var oid := NextKey(s.orders, OrderPk);
    var s1 := s.(orders := s.orders + [Order(oid, Some(caller), None)]);
    CheckoutAfterOrder(notNull, s, caller, productIds);
    ItemsCommit(notNull, s1, oid, productIds);
    var c := Commit(notNull, s1, ItemRows(oid, productIds, None));
    var added := StoredItems(c.ids, oid, productIds, None);
    forall it | it in s.items
      ensures !InOrder(oid)(it)
    {
      if it.orderId.Some? {
        var o :| o in s.orders && Some(o.id) == it.orderId;
      }
    }
    FilterNone(s.items, InOrder(oid));
    FilterAll(added, InOrder(oid));
    FilterConcat(s.items, added, InOrder(oid));
  }

  /** A checkout with product ids answers 201 exactly when neither the total
      amount nor the quantity is enforced and every integer it binds fits;
      otherwise one of its two commits is refused and it answers 500. */
  lemma CreateOrder201Iff(notNull: set<Column>, s: Store, caller: int, productIds: seq<int>)
    requires |productIds| > 0
    ensures CreateOrder(notNull, s, caller, CheckoutRequest(Some(productIds))).response.status == 201
      <==> OrdersTotalAmount !in notNull && OrderItemsQuantity !in notNull && CheckoutFits(s, caller, productIds)
  {
    if !IsInteger(caller) {
      CheckoutCallerOverflow(notNull, s, caller, productIds);
    } else if OrdersTotalAmount in notNull {
      assert !Admits(notNull, OrderRow(PendingOrder(caller)));
    } else {
      var oid := NextKey(s.orders, OrderPk);
      var rows := ItemRows(oid, productIds, None);
      CheckoutAfterOrder(notNull, s, caller, productIds);
      if OrderItemsQuantity in notNull {
        assert !Admits(notNull, rows[0]);
      } else if !IsInteger(oid) {
        assert !Fits(rows[0]);
      } else if !CheckoutFits(s, caller, productIds) {
        var i :| 0 <= i < |productIds| && !IsInteger(productIds[i]);
        assert !Fits(rows[i]);
      } else {
        CheckoutCreatesOrder(notNull, s, caller, productIds);
      }
    }
  }

  /** GET /orders: the caller's orders, serialised, in storage order. The
      query hands the caller's id to the database, which fails, and is
      answered with 500, when the id does not fit an INTEGER. */
  function GetOrders(s: Store, caller: int): (out: Outcome)
    ensures out.store == s
    ensures !IsInteger(caller) ==> out.response == Response(500, Text("error", OrdersFailed))
    ensures IsInteger(caller) ==> out.response.status == 200 && out.response.body.OrderList?
    ensures IsInteger(caller) ==> |out.response.body.orders| == |OrdersOf(s, caller)|
    ensures IsInteger(caller) ==> forall d :: (d in out.response.body.orders
      <==> exists o :: o in s.orders && o.userId == Some(caller) && d == DumpOrder(s, o))
    ensures IsInteger(caller) ==> forall i :: 0 <= i < |out.response.body.orders| ==>
      out.response.body.orders[i] == DumpOrder(s, OrdersOf(s, caller)[i])
  {
    if !IsInteger(caller) then Outcome(Response(500, Text("error", OrdersFailed)), s)
    else Outcome(Response(200, OrderList(DumpOrders(s, OrdersOf(s, caller)))), s)
  }
}

=== FILE: models.dfy ===
/** The records of models.py, their NOT NULL and UNIQUE constraints, and the
    store that holds them. Every column a constructor may leave unset is an
    `Option`; whether NULL is then acceptable is decided by the set of NOT
    NULL columns a commit enforces, so the rows the handlers build can be
    examined against the declared schema. */
module Models {
  import opened Tables

  /** A Float column (`Product.price`, `Order.total_amount`): opaque, the
      model never computes with it. */
  datatype Amount = Amount(bits: int)

  datatype User = User(id: int, email: Option<string>, password: Option<string>)

  datatype Vendor = Vendor(id: int, name: Option<string>)

  datatype Product = Product(
    id: int,
    name: Option<string>,
    description: Option<string>,
    price: Option<Amount>,
    vendorId: Option<int>)

  datatype Order = Order(id: int, userId: Option<int>, totalAmount: Option<Amount>)

  datatype OrderItem = OrderItem(id: int, orderId: Option<int>, productId: Option<int>, quantity: Option<int>)

  datatype Review = Review(
    id: int,
    userId: Option<int>,
    productId: Option<int>,
    rating: Option<int>,
    comment: Option<string>)

  /** The six tables, each in storage order. */
  datatype Store = Store(
    users: seq<User>,
    vendors: seq<Vendor>,
    products: seq<Product>,
    orders: seq<Order>,
    items: seq<OrderItem>,
    reviews: seq<Review>)

  /** Every non-key column of the schema, named table first. */
  datatype Column =
    | UsersEmail | UsersPassword
    | VendorsName
    | ProductsName | ProductsDescription | ProductsPrice | ProductsVendorId
    | OrdersUserId | OrdersTotalAmount
    | OrderItemsOrderId | OrderItemsProductId | OrderItemsQuantity
    | ReviewsUserId | ReviewsProductId | ReviewsRating | ReviewsComment

  /** The columns models.py declares `nullable=False`. */
  const DeclaredNotNull: set<Column> := {
    UsersEmail, UsersPassword,
    VendorsName,
    ProductsName, ProductsPrice,
    OrdersUserId, OrdersTotalAmount,
    OrderItemsOrderId, OrderItemsProductId, OrderItemsQuantity,
    ReviewsUserId, ReviewsProductId, ReviewsRating, ReviewsComment
  }

  /** A row of any table, as handed to the session before a commit. */
  datatype Row =
    | UserRow(user: User)
    | VendorRow(vendor: Vendor)
    | ProductRow(product: Product)
    | OrderRow(order: Order)
    | ItemRow(item: OrderItem)
    | ReviewRow(review: Review)

  function NullIf<T>(v: Option<T>, c: Column): set<Column>
  {
    if v.None? then {c} else {}
  }

  /** The columns of `r` that hold NULL. */
  function NullColumns(r: Row): set<Column>
  {
    match r
    case UserRow(u) => NullIf(u.email, UsersEmail) + NullIf(u.password, UsersPassword)
    case VendorRow(v) => NullIf(v.name, VendorsName)
    case ProductRow(p) =>
      NullIf(p.name, ProductsName) + NullIf(p.description, ProductsDescription)
      + NullIf(p.price, ProductsPrice) + NullIf(p.vendorId, ProductsVendorId)
    case OrderRow(o) => NullIf(o.userId, OrdersUserId) + NullIf(o.totalAmount, OrdersTotalAmount)
    case ItemRow(it) =>
      NullIf(it.orderId, OrderItemsOrderId) + NullIf(it.productId, OrderItemsProductId)
      + NullIf(it.quantity, OrderItemsQuantity)
    case ReviewRow(v) =>
      NullIf(v.userId, ReviewsUserId) + NullIf(v.productId, ReviewsProductId)
      + NullIf(v.rating, ReviewsRating) + NullIf(v.comment, ReviewsComment)
  }

  /** `r` satisfies every NOT NULL constraint in `notNull`. */
  predicate Admits(notNull: set<Column>, r: Row)
  {
    NullColumns(r) !! notNull
  }

  /** The range of SQLite's INTEGER storage class: a signed 64-bit value. */
  const MinInteger: int := -0x8000_0000_0000_0000
  const MaxInteger: int := 0x7FFF_FFFF_FFFF_FFFF

  predicate IsInteger(x: int)
  {
    MinInteger <= x <= MaxInteger
  }

  predicate FitsOrNull(v: Option<int>)
  {
    v.None? || IsInteger(v.value)
  }

  /** Every integer value `r` hands to the database fits an INTEGER; the
      driver refuses to bind a larger one. A pending row's own key is not
      handed over: the database assigns it. */
  predicate Fits(r: Row)
  {
    match r
    case UserRow(_) => true
    case VendorRow(_) => true
    case ProductRow(p) => FitsOrNull(p.vendorId)
    case OrderRow(o) => FitsOrNull(o.userId)
    case ItemRow(it) => FitsOrNull(it.orderId) && FitsOrNull(it.productId) && FitsOrNull(it.quantity)
    case ReviewRow(v) => FitsOrNull(v.userId) && FitsOrNull(v.productId) && FitsOrNull(v.rating)
  }

  // Primary keys (never NULL) and the unique email column, as keys for `Unique`.
  function UserPk(u: User): Option<int> { Some(u.id) }
  function VendorPk(v: Vendor): Option<int> { Some(v.id) }
  function ProductPk(p: Product): Option<int> { Some(p.id) }
  function OrderPk(o: Order): Option<int> { Some(o.id) }
  function ItemPk(it: OrderItem): Option<int> { Some(it.id) }
  function ReviewPk(v: Review): Option<int> { Some(v.id) }
  function EmailOf(u: User): Option<string> { u.email }

  /** The state every commit keeps: all rows meet the enforced NOT NULL
      constraints, primary keys are distinct and no two users share an
      email. */
  predicate Valid(notNull: set<Column>, s: Store)
  {
    && (forall u :: u in s.users ==> Admits(notNull, UserRow(u)))
    && (forall v :: v in s.vendors ==> Admits(notNull, VendorRow(v)))
    && (forall p :: p in s.products ==> Admits(notNull, ProductRow(p)))
    && (forall o :: o in s.orders ==> Admits(notNull, OrderRow(o)))
    && (forall it :: it in s.items ==> Admits(notNull, ItemRow(it)))
    && (forall v :: v in s.reviews ==> Admits(notNull, ReviewRow(v)))
    && Unique(s.users, UserPk) && Unique(s.vendors, VendorPk)
    && Unique(s.products, ProductPk) && Unique(s.orders, OrderPk)
    && Unique(s.items, ItemPk) && Unique(s.reviews, ReviewPk)
    && Unique(s.users, EmailOf)
  }

  // Row selections used by the handlers, the cascades and the schemas.

  function UserIs(uid: int): User -> bool { (u: User) => u.id == uid }
  function ProductIs(pid: int): Product -> bool { (p: Product) => p.id == pid }
  function OrderIs(oid: int): Order -> bool { (o: Order) => o.id == oid }
  function HasEmail(email: Option<string>): User -> bool { (u: User) => u.email == email }
  function OwnedBy(uid: int): Order -> bool { (o: Order) => o.userId == Some(uid) }
  function InOrder(oid: int): OrderItem -> bool { (it: OrderItem) => it.orderId == Some(oid) }
  function ReviewBy(uid: int): Review -> bool { (v: Review) => v.userId == Some(uid) }
  function ReviewOf(pid: int): Review -> bool { (v: Review) => v.productId == Some(pid) }

  /** `Order.query.filter_by(user_id=uid)`, in storage order. */
  function OrdersOf(s: Store, uid: int): (r: seq<Order>)
    ensures forall o :: o in r <==> o in s.orders && o.userId == Some(uid)
  {
    Filter(s.orders, OwnedBy(uid))
  }

  /** The `order_items` relationship of the order with id `oid`. */
  function ItemsOf(s: Store, oid: int): (r: seq<OrderItem>)
    ensures forall it :: it in r <==> it in s.items && it.orderId == Some(oid)
  {
    Filter(s.items, InOrder(oid))
  }

  /** Every order item points at an order that exists. The database does not
      enforce this (SQLite leaves foreign keys unchecked); the cascades keep
      it. */
  predicate ItemsReferenceOrders(s: Store)
  {
    forall it :: it in s.items && it.orderId.Some? ==> exists o :: o in s.orders && Some(o.id) == it.orderId
  }

  /** models.py: a user needs an email and a password. */
  lemma DeclaredUserColumns(u: User)
    ensures Admits(DeclaredNotNull, UserRow(u)) <==> u.email.Some? && u.password.Some?
  {
  }

  /** models.py: an order needs its user and its total amount. */
  lemma DeclaredOrderColumns(o: Order)
    ensures Admits(DeclaredNotNull, OrderRow(o)) <==> o.userId.Some? && o.totalAmount.Some?
  {
  }

  /** models.py: an order item needs its order, its product and a quantity. */
  lemma DeclaredItemColumns(it: OrderItem)
    ensures Admits(DeclaredNotNull, ItemRow(it)) <==> it.orderId.Some? && it.productId.Some? && it.quantity.Some?
  {
  }

  /** models.py: a review needs its user, its product, a rating and a
      comment. */
  lemma DeclaredReviewColumns(v: Review)
    ensures Admits(DeclaredNotNull, ReviewRow(v))
        <==> v.userId.Some? && v.productId.Some? && v.rating.Some? && v.comment.Some?
  {
  }
}

=== FILE: reviews.dfy ===
/** Reviews with the rating bound that models.py asks for (a rating from 1
    to 5) but `create_review` never checks. */
module Reviews {
  import opened Tables
  import opened Models
  import opened Session
  import opened Handlers

  const MinRating := 1
  const MaxRating := 5

  /** The answer to a rating outside the bound. The source has no such
      answer; this wording is the model's own. */
  const RatingOutOfRange := "Rating must be between 1 and 5."

  /** The handler as written appends a review rated 6, above the bound, and
      reports success. */
  lemma OutOfRangeRatingStored(notNull: set<Column>, s: Store, caller: int, productId: int, comment: string)
    requires IsInteger(caller) && IsInteger(productId)
    ensures var out := CreateReview(notNull, s, caller, productId, ReviewRequest(Some(6), Some(comment)));
      && out.response == Response(201, Text("message", ReviewCreated))
      && out.store == s.(reviews := s.reviews + [Review(NextKey(s.reviews, ReviewPk), Some(caller), Some(productId), Some(6), Some(comment))])
  {
    ReviewAppendsOne(notNull, s, caller, productId, 6, comment);
  }

  /** POST /products/<product_id>/reviews with the rating bound checked
      after the presence check and before anything is stored. */
  function CreateReviewBounded(notNull: set<Column>, s: Store, caller: int, productId: int, body: ReviewRequest): (out: Outcome)
    ensures out.response.status != 201 ==> out.store == s
    ensures body.rating.Some? && body.comment.Some? && !(MinRating <= body.rating.value <= MaxRating)
      ==> out == Outcome(Response(400, Text("error", RatingOutOfRange)), s)
    ensures out.response.status == 201 <==>
      && body.rating.Some? && body.comment.Some? && MinRating <= body.rating.value <= MaxRating
      && IsInteger(caller) && IsInteger(productId)
  {
    if body.rating.None? || body.comment.None? then
      Outcome(Response(400, Text("error", ReviewFieldsRequired)), s)
    else if body.rating.value < MinRating || MaxRating < body.rating.value then
      Outcome(Response(400, Text("error", RatingOutOfRange)), s)
    else
      CreateReview(notNull, s, caller, productId, body)
  }

  /** Every review the bounded handler stores has a rating in 1..5, so a
      store whose ratings are in range keeps them in range. */
  lemma BoundedReviewKeepsRatingsInRange(notNull: set<Column>, s: Store, caller: int, productId: int, body: ReviewRequest)
    requires forall v :: v in s.reviews && v.rating.Some? ==> MinRating <= v.rating.value <= MaxRating
    ensures var r := CreateReviewBounded(notNull, s, caller, productId, body).store;
      forall v :: v in r.reviews && v.rating.Some? ==> MinRating <= v.rating.value <= MaxRating
  {
  }
}

=== FILE: schemas.dfy ===
/** The marshmallow schemas of models.py that decide which fields of a
    record are exposed when it is serialised. */
module Schemas {
  import opened Tables
  import opened Models

  /** `UserSchema`: the id and the email; there is no password field. */
  datatype UserDump = UserDump(id: int, email: Option<string>)

  /** `OrderItemSchema`. */
  datatype ItemDump = ItemDump(id: int, orderId: Option<int>, productId: Option<int>, quantity: Option<int>)

  /** `OrderSchema`, with the order's items nested. */
  datatype OrderDump = OrderDump(id: int, userId: Option<int>, totalAmount: Option<Amount>, orderItems: seq<ItemDump>)

  function DumpUser(u: User): UserDump
  {
    UserDump(u.id, u.email)
  }

  /** Two users serialise alike exactly when their ids and emails agree: the
      password never reaches the output. */
  lemma DumpUserExposes(u: User, v: User)
    ensures DumpUser(u) == DumpUser(v) <==> u.id == v.id && u.email == v.email
  {
  }

  function DumpItem(it: OrderItem): ItemDump
  {
    ItemDump(it.id, it.orderId, it.productId, it.quantity)
  }

  /** Serialises a list of items, keeping its order. */
  function DumpItems(items: seq<OrderItem>): (r: seq<ItemDump>)
    ensures |r| == |items|
    ensures forall it :: DumpItem(it) in r <==> it in items
    ensures forall i :: 0 <= i < |r| ==> r[i] == DumpItem(items[i])
  {
    if |items| == 0 then [] else [DumpItem(items[0])] + DumpItems(items[1..])
  }

  /** Serialises order `o` of store `s`; its `order_items` are the items
      whose `order_id` is the order's id. */
  function DumpOrder(s: Store, o: Order): (d: OrderDump)
    ensures d.id == o.id && d.userId == o.userId && d.totalAmount == o.totalAmount
    ensures |d.orderItems| == |ItemsOf(s, o.id)|
    ensures forall it :: DumpItem(it) in d.orderItems <==> it in s.items && it.orderId == Some(o.id)
  {
    OrderDump(o.id, o.userId, o.totalAmount, DumpItems(ItemsOf(s, o.id)))
  }

  /** `OrderSchema(many=True)`: serialises a list of orders, keeping its
      order. */
  function DumpOrders(s: Store, os: seq<Order>): (r: seq<OrderDump>)
    ensures |r| == |os|
    ensures forall d :: d in r <==> exists o :: o in os && d == DumpOrder(s, o)
    ensures forall i :: 0 <= i < |r| ==> r[i] == DumpOrder(s, os[i])
  {
    if |os| == 0 then [] else [DumpOrder(s, os[0])] + DumpOrders(s, os[1..])
  }
}

=== FILE: session.dfy ===
/** The database session: pending rows are flushed in the order they were
    added, each checked against the enforced NOT NULL columns and the unique
    email column and given the next primary key of its table; the first
    violation rolls the whole commit back, so a commit applies every pending
    row or none. Foreign keys are not checked (SQLite's default). */
module Session {
  import opened Tables
  import opened Models

  /** The reason a commit was rolled back. */
  datatype Violation =
    | IntegerOverflow
    | NotNullViolation(columns: set<Column>)
    | UniqueViolation(column: Column)

  datatype CommitResult =
    | Committed(store: Store, ids: seq<int>)
    | Rejected(violation: Violation)

  /** The primary key the database gives `r` when it is inserted into `s`. */
  function NextId(s: Store, r: Row): int
  {
    match r
    case UserRow(_) => NextKey(s.users, UserPk)
    case VendorRow(_) => NextKey(s.vendors, VendorPk)
    case ProductRow(_) => NextKey(s.products, ProductPk)
    case OrderRow(_) => NextKey(s.orders, OrderPk)
    case ItemRow(_) => NextKey(s.items, ItemPk)
    case ReviewRow(_) => NextKey(s.reviews, ReviewPk)
  }

  /** `r` with its primary key set to `id`. A pending row's own key is a
      placeholder: the handlers never set one. */
  function WithId(r: Row, id: int): Row
  {
    match r
    case UserRow(u) => UserRow(u.(id := id))
    case VendorRow(v) => VendorRow(v.(id := id))
    case ProductRow(p) => ProductRow(p.(id := id))
    case OrderRow(o) => OrderRow(o.(id := id))
    case ItemRow(it) => ItemRow(it.(id := id))
    case ReviewRow(v) => ReviewRow(v.(id := id))
  }

  /** `s` with `r` stored at the end of its table. */
  function Append(s: Store, r: Row): Store
  {
    match r
    case UserRow(u) => s.(users := s.users + [u])
    case VendorRow(v) => s.(vendors := s.vendors + [v])
    case ProductRow(p) => s.(products := s.products + [p])
    case OrderRow(o) => s.(orders := s.orders + [o])
    case ItemRow(it) => s.(items := s.items + [it])
    case ReviewRow(v) => s.(reviews := s.reviews + [v])
  }

  /** `s` with the rows of `rs` stored one after the other. */
  function AppendAll(s: Store, rs: seq<Row>): Store
    decreases |rs|
  {
    if |rs| == 0 then s else AppendAll(Append(s, rs[0]), rs[1..])
  }

  /** The pending rows with the keys the database gave them. */
  function Stamp(rows: seq<Row>, ids: seq<int>): (r: seq<Row>)
    requires |rows| == |ids|
  {
    seq(|rows|, i requires 0 <= i < |rows| => WithId(rows[i], ids[i]))
  }

  /** The constraint, if any, that inserting `r` into `s` violates. */
  function Check(notNull: set<Column>, s: Store, r: Row): Option<Violation>
  {
    if !Fits(r) then Some(IntegerOverflow)
    else if !Admits(notNull, r) then Some(NotNullViolation(NullColumns(r) * notNull))
    else if r.UserRow? && r.user.email.Some? && exists u :: u in s.users && u.email == r.user.email then
      Some(UniqueViolation(UsersEmail))
    else None
  }

  /** `db.session.commit()` of the pending `rows` against `s`. */
  function Commit(notNull: set<Column>, s: Store, rows: seq<Row>): (c: CommitResult)
    decreases |rows|
    // a commit that succeeds stores exactly the pending rows, each with its new key
    ensures c.Committed? ==> |c.ids| == |rows| && c.store == AppendAll(s, Stamp(rows, c.ids))
    ensures c.Committed? && |rows| > 0 ==> c.ids[0] == NextId(s, rows[0])
    // no row with a NULL in an enforced NOT NULL column or an integer too
    // large to bind is ever stored ...
    ensures c.Committed? ==> forall i :: 0 <= i < |rows| ==> Admits(notNull, rows[i]) && Fits(rows[i])
    // ... and no user with an email some stored user already has
    ensures c.Committed? ==>
      forall i, u :: 0 <= i < |rows| && rows[i].UserRow? && rows[i].user.email.Some? && u in s.users
        ==> u.email != rows[i].user.email
    // without users, binding and meeting the NOT NULL constraints is all a
    // commit needs
    ensures (forall i :: 0 <= i < |rows| ==> Fits(rows[i]) && Admits(notNull, rows[i]) && !rows[i].UserRow?)
      ==> c.Committed?
  {
    if |rows| == 0 then Committed(s, [])
    else
      match Check(notNull, s, rows[0])
      case Some(v) => Rejected(v)
      case None =>
        var id := NextId(s, rows[0]);
        var s1 := Append(s, WithId(rows[0], id));
        assert forall u :: u in s.users ==> u in s1.users;
        match Commit(notNull, s1, rows[1..])
        case Rejected(v) => Rejected(v)
        case Committed(s2, ids) =>
          assert Stamp(rows, [id] + ids)[1..] == Stamp(rows[1..], ids);
          Committed(s2, [id] + ids)
  }

  /** Inserting one row that passes `Check` keeps the store valid. */
  lemma InsertKeepsValid(notNull: set<Column>, s: Store, r: Row)
    requires Valid(notNull, s)
    requires Check(notNull, s, r).None?
    ensures Valid(notNull, Append(s, WithId(r, NextId(s, r))))
  {
    var id := NextId(s, r);
    assert NullColumns(WithId(r, id)) == NullColumns(r);
    match r
    case UserRow(u) =>
      UniqueAppend(s.users, u.(id := id), UserPk);
      UniqueAppend(s.users, u.(id := id), EmailOf);
    case VendorRow(v) => UniqueAppend(s.vendors, v.(id := id), VendorPk);
    case ProductRow(p) => UniqueAppend(s.products, p.(id := id), ProductPk);
    case OrderRow(o) => UniqueAppend(s.orders, o.(id := id), OrderPk);
    case ItemRow(it) => UniqueAppend(s.items, it.(id := id), ItemPk);
    case ReviewRow(v) => UniqueAppend(s.reviews, v.(id := id), ReviewPk);
  }

  /** A commit keeps the store valid: NOT NULL columns filled, primary keys
      distinct, emails unique. */
  lemma {:induction false} CommitKeepsValid(notNull: set<Column>, s: Store, rows: seq<Row>)
    requires Valid(notNull, s)
    ensures Commit(notNull, s, rows).Committed? ==> Valid(notNull, Commit(notNull, s, rows).store)
    decreases |rows|
  {
    if |rows| > 0 && Check(notNull, s, rows[0]).None? {
      var s1 := Append(s, WithId(rows[0], NextId(s, rows[0])));
      InsertKeepsValid(notNull, s, rows[0]);
      CommitKeepsValid(notNull, s1, rows[1..]);
    }
  }

  /** A successful commit is its first row's insert followed by a successful
      commit of the rest. */
  lemma CommitStep(notNull: set<Column>, s: Store, rows: seq<Row>)
    requires |rows| > 0
    requires Commit(notNull, s, rows).Committed?
    ensures var c := Commit(notNull, s, rows);
      && c.ids[0] == NextId(s, rows[0])
      && Commit(notNull, Append(s, WithId(rows[0], c.ids[0])), rows[1..]) == Committed(c.store, c.ids[1..])
  {
  }

  /** Storing the first `i` stamped rows is storing the first one and then
      the next `i - 1`. */
  lemma StampPrefix(s: Store, rows: seq<Row>, ids: seq<int>, i: int)
    requires |rows| == |ids| && 0 < i <= |rows|
    ensures AppendAll(s, Stamp(rows[..i], ids[..i]))
      == AppendAll(Append(s, WithId(rows[0], ids[0])), Stamp(rows[1..][..i - 1], ids[1..][..i - 1]))
  {
    var st := Stamp(rows[..i], ids[..i]);
    assert st[1..] == Stamp(rows[1..][..i - 1], ids[1..][..i - 1]);
  }

  /** Each committed row gets the next key of its table in the store that
      already holds the rows committed before it. */
  lemma {:induction false} CommitKeys(notNull: set<Column>, s: Store, rows: seq<Row>)
    requires Commit(notNull, s, rows).Committed?
    ensures var ids := Commit(notNull, s, rows).ids;
      forall i :: 0 <= i < |rows| ==> ids[i] == NextId(AppendAll(s, Stamp(rows[..i], ids[..i])), rows[i])
    decreases |rows|
  {
    var ids := Commit(notNull, s, rows).ids;
    if |rows| > 0 {
      CommitStep(notNull, s, rows);
      var s1 := Append(s, WithId(rows[0], ids[0]));
      CommitKeys(notNull, s1, rows[1..]);
      forall i | 0 < i < |rows|
        ensures ids[i] == NextId(AppendAll(s, Stamp(rows[..i], ids[..i])), rows[i])
      {
        StampPrefix(s, rows, ids, i);
        assert rows[1..][i - 1] == rows[i] && ids[1..][i - 1] == ids[i];
      }
      assert Stamp(rows[..0], ids[..0]) == [];
    }
  }

  /** A user whose email is already stored is never committed. */
  lemma DuplicateEmailRejected(notNull: set<Column>, s: Store, u: User, newcomer: User)
    requires u in s.users && u.email.Some?
    requires newcomer.email == u.email
    ensures Commit(notNull, s, [UserRow(newcomer)]).Rejected?
    ensures Admits(notNull, UserRow(newcomer))
      ==> Commit(notNull, s, [UserRow(newcomer)]) == Rejected(UniqueViolation(UsersEmail))
  {
  }

  /** The order items of a batch of item rows. */
  function ItemsIn(rs: seq<Row>): seq<OrderItem>
    requires forall i :: 0 <= i < |rs| ==> rs[i].ItemRow?
  {
    seq(|rs|, i requires 0 <= i < |rs| && rs[i].ItemRow? => rs[i].item)
  }

  /** Storing a batch of item rows touches only the items table, where the
      rows follow the existing ones in batch order. */
  lemma {:induction false} AppendAllItems(s: Store, rs: seq<Row>)
    requires forall i :: 0 <= i < |rs| ==> rs[i].ItemRow?
    ensures AppendAll(s, rs) == s.(items := s.items + ItemsIn(rs))
    decreases |rs|
  {
    if |rs| > 0 {
      AppendAllItems(Append(s, rs[0]), rs[1..]);
      assert ItemsIn(rs) == [rs[0].item] + ItemsIn(rs[1..]);
    }
  }
}

=== FILE: tables.dfy ===
/** Generic operations on the tables of a relational store. A table is a
    sequence of rows in storage (rowid) order; a column that may hold SQL
    NULL is an `Option`. */
module Tables {

  /** A column value that may be SQL NULL (`None`). */
  datatype Option<+T> = None | Some(value: T)

  /** The complement of a row predicate. */
  function Not<T>(keep: T -> bool): T -> bool
  {
    x => !keep(x)
  }

  /** The rows of `xs` that satisfy `keep`, in storage order: the rows a
      `WHERE` clause selects. */
  function Filter<T(!new)>(xs: seq<T>, keep: T -> bool): (r: seq<T>)
    ensures |r| <= |xs|
    ensures forall x :: x in r <==> x in xs && keep(x)
  {
    if |xs| == 0 then []
    else
      assert xs == xs[..|xs| - 1] + [xs[|xs| - 1]];
      Filter(xs[..|xs| - 1], keep) + (if keep(xs[|xs| - 1]) then [xs[|xs| - 1]] else [])
  }

  /** Filtering a table with one more row at its end. */
  lemma FilterAppend<T(!new)>(xs: seq<T>, x: T, keep: T -> bool)
    ensures Filter(xs + [x], keep) == Filter(xs, keep) + (if keep(x) then [x] else [])
  {
  }

  /** A filter that no row passes selects nothing. */
  lemma FilterNone<T(!new)>(xs: seq<T>, keep: T -> bool)
    requires forall x :: x in xs ==> !keep(x)
    ensures Filter(xs, keep) == []
  {
  }

  /** Filtering two tables one after the other. */
  lemma {:induction false} FilterConcat<T(!new)>(xs: seq<T>, ys: seq<T>, keep: T -> bool)
    ensures Filter(xs + ys, keep) == Filter(xs, keep) + Filter(ys, keep)
  {
    if |ys| > 0 {
      var init, last := ys[..|ys| - 1], ys[|ys| - 1];
      assert ys == init + [last];
      assert xs + ys == (xs + init) + [last];
      FilterConcat(xs, init, keep);
      FilterAppend(xs + init, last, keep);
      FilterAppend(init, last, keep);
    } else {
      assert xs + ys == xs;
    }
  }

  /** A filter that every row passes selects the whole table. */
  lemma {:induction false} FilterAll<T(!new)>(xs: seq<T>, keep: T -> bool)
    requires forall x :: x in xs ==> keep(x)
    ensures Filter(xs, keep) == xs
  {
    if |xs| > 0 {
      var init := xs[..|xs| - 1];
      assert xs == init + [xs[|xs| - 1]];
      FilterAll(init, keep);
      FilterAppend(init, xs[|xs| - 1], keep);
    }
  }

  /** Filtering first by a weaker condition changes nothing: a later,
      stronger `WHERE` sees the same rows in the same order. */
  lemma {:induction false} FilterAbsorb<T(!new)>(xs: seq<T>, weak: T -> bool, strong: T -> bool)
    requires forall x :: strong(x) ==> weak(x)
    ensures Filter(Filter(xs, weak), strong) == Filter(xs, strong)
  {
    if |xs| > 0 {
      var init, last := xs[..|xs| - 1], xs[|xs| - 1];
      assert xs == init + [last];
      FilterAbsorb(init, weak, strong);
      FilterAppend(init, last, weak);
      FilterAppend(init, last, strong);
      if weak(last) {
        assert Filter(xs, weak) == Filter(init, weak) + [last];
        FilterAppend(Filter(init, weak), last, strong);
      } else {
        assert Filter(xs, weak) == Filter(init, weak);
      }
    }
  }

  /** The SQL UNIQUE constraint on the column `key`: no two rows share a
      non-NULL value (NULLs never collide). A primary key is the case where
      `key` is never NULL. */
  predicate Unique<T, K(==)>(xs: seq<T>, key: T -> Option<K>)
  {
    forall i, j :: 0 <= i < j < |xs| && key(xs[i]).Some? ==> key(xs[i]) != key(xs[j])
  }

  /** Two distinct rows of a table with a unique column never share a
      non-NULL value of it. */
  lemma UniqueMembers<T, K>(xs: seq<T>, key: T -> Option<K>, x: T, y: T)
    requires Unique(xs, key)
    requires x in xs && y in xs && x != y && key(x).Some?
    ensures key(x) != key(y)
  {
  }

  /** Inserting a row whose value is NULL or new keeps the column unique. */
  lemma UniqueAppend<T(!new), K>(xs: seq<T>, x: T, key: T -> Option<K>)
    requires Unique(xs, key)
    requires key(x).Some? ==> forall y :: y in xs ==> key(y) != key(x)
    ensures Unique(xs + [x], key)
  {
  }

  /** Deleting rows keeps a column unique. */
  lemma {:induction false} FilterKeepsUnique<T(!new), K>(xs: seq<T>, keep: T -> bool, key: T -> Option<K>)
    requires Unique(xs, key)
    ensures Unique(Filter(xs, keep), key)
  {
    if |xs| > 0 {
      var init, last := xs[..|xs| - 1], xs[|xs| - 1];
      assert xs == init + [last];
      assert Unique(init, key);
      FilterKeepsUnique(init, keep, key);
      FilterAppend(init, last, keep);
      if keep(last) && key(last).Some? {
        forall y | y in Filter(init, keep)
          ensures key(y) != key(last)
        {
          var k :| 0 <= k < |init| && init[k] == y;
          assert xs[k] == y;
          if key(y).None? {
          } else {
            assert key(xs[k]) != key(xs[|xs| - 1]);
          }
        }
      }
      UniqueAppend(Filter(init, keep), last, key);
    }
  }

  /** The largest non-NULL value of the column `key`, `None` when every row
      holds NULL there (or the table is empty). */
  function MaxKey<T(!new)>(xs: seq<T>, key: T -> Option<int>): (m: Option<int>)
    ensures m.None? <==> forall x :: x in xs ==> key(x).None?
    ensures m.Some? ==> exists x :: x in xs && key(x) == m
    ensures forall x :: x in xs && key(x).Some? ==> key(x).value <= m.value
  {
    if |xs| == 0 then None
    else
      var init, last := xs[..|xs| - 1], xs[|xs| - 1];
      assert xs == init + [last];
      var m0 := MaxKey(init, key);
      if key(last).None? then m0
      else if m0.Some? && key(last).value <= m0.value then m0
      else key(last)
  }

  /** The key SQLite gives a row inserted without one into an integer
      primary key column: one more than the largest key in the table, 1 when
      the table holds no key. */
  function NextKey<T(!new)>(xs: seq<T>, key: T -> Option<int>): (k: int)
    ensures forall x :: x in xs && key(x).Some? ==> key(x).value < k
    ensures (forall x :: x in xs ==> key(x).None?) ==> k == 1
    ensures (exists x :: x in xs && key(x).Some?) ==> exists x :: x in xs && key(x) == Some(k - 1)
  {
    match MaxKey(xs, key)
    case None => 1
    case Some(m) => m + 1
  }
}
